=== FILE: README.md ===
# Portfolio chat widget and navigation bar — a Dafny model

This project models the two pieces of the portfolio site that make
decisions:

- **The chat widget** (`src/components/ChatBot.tsx`).
  - A keyword table gives each intent its trigger words (greeting, skills, projects, contact, about, resume).
  - The classifier lower-cases the message and counts, for each intent, how many of its keywords occur as substrings.
  - It keeps the first intent whose count beats the best so far, and answers `unknown` when nothing matched.
  - The reply generator turns the intent into a canned reply: a random greeting, a template filled from the static knowledge base, or a fixed text.
  - The widget keeps a message log, the input box, a "typing" flag and the pending reply timers.
  - Sending appends the user message, clears the input and sets the flag. When the timer fires, exactly one bot reply to the captured text is appended and the flag is cleared.
- **The navigation bar** (`src/components/Navigation.tsx`).
  - It hides while the page scrolls down past the top 50 pixels and shows on the way up.
  - It marks as active the link of the intersecting section with the largest intersection ratio (the earliest among equals, because the sort is stable).
  - It moves the active link and closes the menu when a link's target exists.
  - It has a menu button that flips the mobile menu.

Files:

- `Text.dfy` (module `Text`) holds the JavaScript string operations the widget relies on:
  - `toLowerCase` on ASCII;
  - `includes`;
  - `Array.prototype.join`;
  - `trim` with the ECMAScript white-space and line-terminator set.
- `ChatBot.dfy` (module `ChatBot`) holds:
  - the knowledge base and keyword table;
  - the classifier, as a specification function (`Classify`) and as the nested-loop method the widget runs (`DetermineIntent`, proved equal to it);
  - the replies (`Respond`, `ProcessInput`);
  - the widget as a class (`ChatWidget`) whose methods update its fields.
- `Navigation.dfy` (module `Navigation`) holds the observer's filter and stable sort, and the navigation bar as a class (`NavBar`).

Modelling choices:

- **Replies take the knowledge base as a parameter.**
  - `Respond` and `ProcessInput` take it as an argument `kb`.
  - `ChatWidget` holds it in a constant field that its constructor sets to `PortfolioData`, the site's own data, copied literally from `ChatBot.tsx:13-38`.
  - The templates need only at least two projects, and most reply lemmas hold for any knowledge base that has them.
  - `FixedRepliesAreDistinct`, `FallbackIffNoKeyword` and `ResumeReplyIff` also need the biography to differ from the resume and fallback texts. Together the two conditions are `ValidKnowledgeBase`.
  - `PortfolioDataIsValid` shows the site's own data qualifies.
- **The send handler reads the input of the render that created it.**
  - `handleSendMessage` is a closure that sees the `inputValue` of that render.
  - It is modelled as `HandleSendMessage(rendered)`.
  - The form's submit handler passes the current input.
  - The suggestion buttons pass the input the button's render saw, which is not the suggestion they have just put in the box (see Findings).
- **A scheduled reply is an entry of `timers`.**
  - Each scheduled reply keeps the text it captured.
  - `OnReplyTimer(k, pick)` fires entry `k`.
  - `pick` is the index the random greeting draw would produce.
- **The invariant `ChatWidget.Valid` ties the state together.**
  - The log is the welcome message followed by alternating non-blank user messages and replies to them.
  - Only the last user message may still be waiting, and then exactly one timer holds its text.
  - `isTyping` says whether a timer is pending.
- **A tie in practice.** By the code, "hi, what projects have you built?" is classified as a greeting, not as projects:
  - "hi" matches for the greeting intent and "project" matches for projects;
  - "built" does not contain the keyword "build";
  - so the two scores tie at one, and the earlier-declared greeting wins.

## Model

| member | source | states |
|---|---|---|
| Text.ToLower | src/components/ChatBot.tsx:119 | the result has the input's length; each character is the ASCII lower-case of the input's character at that place (letters shifted by 32, all else kept) |
| Text.LowerCaseUnchanged | src/components/ChatBot.tsx:119 | lower-casing leaves a string unchanged exactly when it holds no ASCII capital letter |
| Text.ToLowerIdempotent | src/components/ChatBot.tsx:119 | lower-casing an already lower-cased string changes nothing |
| Text.Includes | src/components/ChatBot.tsx:126 | `includes` is true exactly when some position of the text starts an occurrence of the keyword (the empty keyword occurs everywhere) |
| Text.JoinIncludesEach | src/components/ChatBot.tsx:150 | every element of a list occurs in the list joined with any separator |
| Text.Join | src/components/ChatBot.tsx:150 | `join` of a non-empty list starts with its first element and ends with its last |
| Text.TrimStartRemovesLeading | src/components/ChatBot.tsx:89 | trimming the front removes a prefix made only of white-space characters and stops at the first other character |
| Text.TrimEndRemovesTrailing | src/components/ChatBot.tsx:89 | trimming the back removes a suffix made only of white-space characters and stops at the last other character |
| Text.Trim | src/components/ChatBot.tsx:89 | `trim` returns a slice of the input outside of which every character is white space or a line terminator, and the slice neither starts nor ends with such a character |
| Text.Blank | src/components/ChatBot.tsx:89 | the blank check `!s.trim()` holds exactly when every character of the input is white space or a line terminator |
| ChatBot.Keywords | src/components/ChatBot.tsx:43-51 | each intent's trigger words, word for word and in table order; `unknown`, and only `unknown`, has none |
| ChatBot.KeywordsAreLowerCase | src/components/ChatBot.tsx:43-51 | every trigger word is its own lower case, so each can occur in the lower-cased input |
| ChatBot.CountIncluded | src/components/ChatBot.tsx:124-127 | a score never exceeds the number of keywords, and is zero exactly when none of the keywords occurs in the text |
| ChatBot.CountIsDistinctMatches | src/components/ChatBot.tsx:124-127 | over a list without repeated words, the count equals the number of distinct keywords that occur, however often each occurs |
| ChatBot.ScoreCountsDistinctKeywords | src/components/ChatBot.tsx:43-51 | every intent's score is the number of distinct words of its own keyword list that occur in the text |
| ChatBot.ScoresCountDistinctMatches | src/components/ChatBot.tsx:123-127 | `Scores` gives one score per intent, in the declaration order of the keyword table; each is the number of distinct words of that intent's list that occur in the text |
| ChatBot.PickBest | src/components/ChatBot.tsx:128-131 | the scan never lowers the best score, and keeps the current best intent when no later score beats it; `PickBestKeepsInvariant` gives the full result |
| ChatBot.Classify | src/components/ChatBot.tsx:118-135 | the intent is `unknown` exactly when every intent scores zero; otherwise no intent scores more than the chosen one (`ClassifyIsFirstBest` adds the first-wins rule for ties) |
| ChatBot.PickBestKeepsInvariant | src/components/ChatBot.tsx:128-131 | the strictly-greater-wins scan ends with the largest score and the first intent that reached it, or with `unknown` when every score is zero |
| ChatBot.ClassifyIsFirstBest | src/components/ChatBot.tsx:118-135 | the chosen intent is `unknown` when all scores are zero; otherwise its score is at least every intent's score and strictly greater than that of every intent declared before it |
| ChatBot.FirstBestIsUnique | src/components/ChatBot.tsx:128-131 | at most one intent meets that description, so ties always go to the earliest-declared intent |
| ChatBot.ScoreZeroIff | src/components/ChatBot.tsx:123-127 | an intent's score is zero exactly when none of its keywords occurs in the text |
| ChatBot.ClassifyUnknownIff | src/components/ChatBot.tsx:118-134 | the answer is `unknown` exactly when no keyword of any intent occurs in the lower-cased input |
| ChatBot.ClassifyIgnoresCase | src/components/ChatBot.tsx:119 | an input and its lower-cased form get the same intent |
| ChatBot.CountKeywords | src/components/ChatBot.tsx:124-127 | the inner loop's counter ends at the number of keywords that occur in the text |
| ChatBot.DetermineIntent | src/components/ChatBot.tsx:118-135 | the nested loops return exactly the intent `Classify` describes, a deterministic function of the input alone |
| ChatBot.PortfolioDataIsValid | src/components/ChatBot.tsx:13-38 | the site's knowledge base has at least two projects and a biography distinct from the fixed replies |
| ChatBot.Respond | src/components/ChatBot.tsx:140-166 | a greeting is one of the three listed greetings; `about` gives the biography; `resume` and `unknown` give their fixed texts. The skills, projects and contact templates are described by the three lemmas after it |
| ChatBot.GreetingReplyIsListed | src/components/ChatBot.tsx:141-147 | the greeting reply is one of the three listed greetings, and each of them is the reply for some draw |
| ChatBot.SkillsReplyListsSkillsInOrder | src/components/ChatBot.tsx:150 | the skills reply holds the frontend list joined by ", " and, after it, the backend list joined by ", ", so it names every listed skill |
| ChatBot.ProjectsReplyListsFirstTwo | src/components/ChatBot.tsx:153 | the projects reply holds the first project's name, " - " and description and, after it, the same for the second project |
| ChatBot.ContactReplyGivesEmailAndPhone | src/components/ChatBot.tsx:156 | the contact reply gives the e-mail address and, after it, the phone number |
| ChatBot.ProcessInput | src/components/ChatBot.tsx:137-167 | the reply is the one for the classified intent: the fallback text when the input is classified `unknown`, one of the greetings when it is classified as a greeting. `FallbackIffNoKeyword` and `ResumeReplyIff` give both directions |
| ChatBot.FixedRepliesAreDistinct | src/components/ChatBot.tsx:161-165 | the resume text is the reply exactly for `resume`, and the fallback text exactly for `unknown` |
| ChatBot.FallbackIffNoKeyword | src/components/ChatBot.tsx:164-165 | the fallback text is the answer exactly when no keyword occurs in the lower-cased input, whatever greeting is drawn |
| ChatBot.ResumeReplyIff | src/components/ChatBot.tsx:161-162 | the resume text is the answer exactly when the input is classified as `resume` |
| ChatBot.AppendUserMessage | src/components/ChatBot.tsx:98 | appending a non-blank user message to a log with no reply pending keeps the log well formed, with that message awaiting its reply |
| ChatBot.AppendBotReply | src/components/ChatBot.tsx:113 | appending an acceptable reply to the captured text of the pending message closes the exchange, leaving no reply pending and the welcome message first |
| ChatBot.ProcessInputIsReply | src/components/ChatBot.tsx:106-113 | what `processInput` returns for the captured text, with any greeting draw, is an acceptable reply to it |
| ChatBot.ChatWidget.constructor | src/components/ChatBot.tsx:54-64 | the widget starts closed, with the welcome message alone in the log, an empty input, not typing and no timer, and satisfies its invariant |
| ChatBot.ChatWidget.ToggleChat | src/components/ChatBot.tsx:68-70 | the launcher flips whether the widget is open |
| ChatBot.ChatWidget.ChangeInput | src/components/ChatBot.tsx:268 | typing sets the input box to the new value |
| ChatBot.ChatWidget.SendDisabled | src/components/ChatBot.tsx:274 | the send button is disabled exactly when a reply is pending or every character of the input is white space or a line terminator |
| ChatBot.ChatWidget.HandleSendMessage | src/components/ChatBot.tsx:87-103 | a blank text changes nothing; otherwise exactly one user message with the text is appended after the unchanged earlier entries, the input is cleared, typing is set and one timer captures the text |
| ChatBot.ChatWidget.OnReplyTimer | src/components/ChatBot.tsx:105-115 | exactly one bot message, the reply to the timer's captured text, is appended after the unchanged log; typing is cleared, the timer is gone and the invariant holds |
| ChatBot.ChatWidget.Submit | src/components/ChatBot.tsx:263-274 | the form sends only when the widget is open and the send button is enabled (input not blank, no reply pending); then the user message is appended, the input cleared and typing set; otherwise nothing changes |
| ChatBot.ChatWidget.ClickSuggestion | src/components/ChatBot.tsx:245-253 | with only the welcome in the log, a click puts the suggestion in the input box and sends what the box held before it, so on a blank box nothing is sent |
| ChatBot.ChatWidget.ClickSuggestionIntended | src/components/ChatBot.tsx:250-253 | the corrected click sends the suggestion itself as the user message, clears the input and sets typing |
| ChatBot.SuggestionOnFreshWidget | src/components/ChatBot.tsx:250-253 | on a fresh widget, opening it and clicking the first suggestion leaves the log as the welcome message alone and the suggestion in the input box |
| ChatBot.IntendedSuggestionOnFreshWidget | src/components/ChatBot.tsx:250-253 | with the corrected click, the same steps send the suggestion as the first user message |
| Navigation.Intersecting | src/components/Navigation.tsx:72 | the filter keeps exactly the intersecting entries, and is empty exactly when no entry intersects |
| Navigation.InsertByRatio | src/components/Navigation.tsx:73 | inserting adds exactly the new entry: the length grows by one and the multiset gains it |
| Navigation.SortByRatio | src/components/Navigation.tsx:73 | the sort is a permutation of its input |
| Navigation.SortByRatioIsDescending | src/components/Navigation.tsx:73 | after the sort no ratio is larger than one before it |
| Navigation.TopEntryIsUnique | src/components/Navigation.tsx:71-77 | there is at most one intersecting entry with the largest ratio that is strictly above every earlier intersecting entry's |
| Navigation.SortedHeadIsTopEntry | src/components/Navigation.tsx:71-75 | when some entry intersects, the head of the filtered, sorted list is that entry: the largest ratio, the earliest among equals |
| Navigation.NavBar.constructor | src/components/Navigation.tsx:6-8 | the menu starts closed, the active link is `#home` and the remembered scroll position is 0 |
| Navigation.NavBar.ControlNavbar | src/components/Navigation.tsx:16-33 | below 50 the bar is shown; from 50 on it hides exactly when the position exceeds the remembered one; the position is remembered in every case |
| Navigation.NavBar.ScrollToSection | src/components/Navigation.tsx:120-127 | when the target exists the link becomes active and the menu closes; otherwise neither changes |
| Navigation.NavBar.ToggleMenu | src/components/Navigation.tsx:191 | the menu button flips whether the menu is open |
| Navigation.NavBar.OnIntersect | src/components/Navigation.tsx:69-78 | with no intersecting entry the active link is unchanged; otherwise it becomes `#` plus the id of the top entry |

## Left out

- Message ids and timestamps (`Date.now()`, `new Date()`) are clock values and are not modelled. A log entry is its text and sender.
- The random reply delay is not modelled. Any pending timer may fire next.
- The random greeting draw is the parameter `pick` (0, 1 or 2).
- `toLowerCase` is modelled for ASCII letters only. Other characters are kept as they are.
- Scroll positions and intersection ratios are unbounded reals. Floating-point rounding and NaN are not modelled.
- Browser plumbing becomes inputs:
  - `window.scrollY` is the argument of `ControlNavbar`;
  - whether `document.querySelector` finds the target is the flag `targetExists`;
  - the observer's entries are a list of (id, ratio, intersecting).
- Not modelled at all:
  - `scrollIntoView`;
  - the observer's construction, thresholds and section lookup;
  - listener registration and removal.
- Animations and rendering are not modelled:
  - the GSAP tweens of the chat window, the navigation bar and the mobile menu;
  - the initial reveal and the sheen sweep;
  - the auto-scroll of the log;
  - the JSX itself.
  - The bar's visibility is the boolean `shown`, the target of its latest show or hide tween. The initial reveal that follows loading is not part of this model.
- ChatBot.Respond: requires at least two projects in the knowledge base. The source indexes `projects[0]` and `projects[1]` unchecked, and the knowledge base it uses has seven.
- Knowledge-base fields that no reply uses (name, role, university, tools, LinkedIn and GitHub links) are kept as data only.
- Timers are never cancelled in the source; unmounting the widget is not modelled.
- The contact form, the static page sections, the preloader and the page shell are not part of this model.

## Findings

| source | as written | input that shows it | evidently intended | confidence | as-written member | corrected member |
|---|---|---|---|---|---|---|
| src/components/ChatBot.tsx:250-253 | the suggestion button calls `setInputValue(suggestion)` and then the send handler of the current render, which still reads the input box as it was before the click | open a fresh widget (empty input box) and click "What are your skills?": the blank check rejects the old empty input, nothing is sent, and the suggestion is only left in the input box | the click sends the suggestion's text as the user message, as pressing send after typing it would | not executed | ChatBot.SuggestionOnFreshWidget | ChatBot.IntendedSuggestionOnFreshWidget |

=== FILE: ChatBot.dfy ===
/**
 * The chat widget: a keyword-scoring intent classifier, the canned reply
 * for each intent filled from a static knowledge base, and the widget's
 * conversation state (message log, input box, "typing" flag and the
 * pending reply timers).
 */
module ChatBot {
  import opened Text

  // ---------------------------------------------------------------------
  // Knowledge base
  // ---------------------------------------------------------------------

  datatype Project = Project(name: string, desc: string)

  datatype SkillSet = SkillSet(frontend: seq<string>, backend: seq<string>, tools: seq<string>)

  datatype ContactInfo = ContactInfo(email: string, phone: string, linkedin: string, github: string)

  datatype KnowledgeBase = KnowledgeBase(
    name: string,
    role: string,
    university: string,
    skills: SkillSet,
    projects: seq<Project>,
    contact: ContactInfo,
    bio: string)

  const PortfolioData := KnowledgeBase(
    "Janeesha Gamage",
    "Undergraduate Computer Science Student",
    "SLIIT (Sri Lanka Institute of Information Technology)",
    SkillSet(
      ["React", "TypeScript", "Tailwind CSS", "GSAP", "HTML5", "CSS3"],
      ["Node.js", "Java", "C++", "Python"],
      ["Git", "VS Code", "Figma"]),
    [ Project("DineEase Backend", "A robust backend system for a restaurant management platform using Node.js and MongoDB."),
      Project("Payment System Zookeeper", "A distributed payment processing system utilizing Apache Zookeeper for fault tolerance."),
      Project("Portfolio Website", "My personal portfolio featuring a futuristic design, 3D elements, and this AI assistant."),
      Project("PPcom", "A C++ based communication or processing tool."),
      Project("Worksheet-07", "Academic coursework demonstrating core Java programming concepts."),
      Project("Git Evaluate Base", "A template project for evaluating Git workflow proficiency."),
      Project("GitHub Profile", "My GitHub profile configuration with stats and bio.") ],
    ContactInfo(
      "janeeshagamage02@gmail.com",
      "+94 77 959 3243",
      "https://www.linkedin.com/in/janeesha-gamage-522717298",
      "https://github.com/J4N3i"),
    "I'm a passionate web developer and undergraduate at SLIIT. I love creating immersive digital experiences that combine beautiful design with powerful functionality. I'm currently serving as the Vice President of the CS Student Committee.")

  // ---------------------------------------------------------------------
  // Intent classifier
  // ---------------------------------------------------------------------

  datatype Intent = Greeting | Skills | Projects | Contact | About | Resume | Unknown

  /** The order in which the keyword table declares its intents (and `Object.entries` visits them). */
  const IntentOrder: seq<Intent> := [Greeting, Skills, Projects, Contact, About, Resume, Unknown]

  /**
   * The trigger words of each intent, all lower case (`KeywordsAreLowerCase`)
   * and none repeated (`ScoreCountsDistinctKeywords` checks it); `Unknown`,
   * and only `Unknown`, has none.
   */
  function Keywords(intent: Intent): (kws: seq<string>)
    ensures kws == [] <==> intent == Unknown
  {
    match intent
    case Greeting => ["hello", "hi", "hey", "greetings", "morning", "afternoon", "evening"]
    case Skills => ["skill", "stack", "tech", "technology", "language", "framework", "react", "java", "typescript"]
    case Projects => ["project", "work", "portfolio", "build", "created", "app", "website"]
    case Contact => ["contact", "email", "phone", "reach", "message", "talk", "hire"]
    case About => ["who", "about", "bio", "yourself", "background", "student", "sliit", "study"]
    case Resume => ["resume", "cv", "download", "pdf"]
    case Unknown => []
  }

  /**
   * Every trigger word is already lower case, so each can match the
   * lower-cased input. Kept out of `Keywords`' own contract, which every
   * reply proof would otherwise carry.
   */
  lemma KeywordsAreLowerCase(intent: Intent)
    ensures forall k :: 0 <= k < |Keywords(intent)| ==> ToLower(Keywords(intent)[k]) == Keywords(intent)[k]
  {
    var kws := Keywords(intent);
    match intent {
      case Greeting => GreetingWordsAreLowerCase();
      case Skills => SkillsWordsAreLowerCase();
      case Projects => ProjectsWordsAreLowerCase();
      case Contact => ContactWordsAreLowerCase();
      case About => AboutWordsAreLowerCase();
      case Resume => ResumeWordsAreLowerCase();
      case Unknown =>
    }
    forall k | 0 <= k < |kws|
      ensures ToLower(kws[k]) == kws[k]
    {
      LowerCaseUnchanged(kws[k]);
    }
  }

  /** Each word of `kws` is lower case. */
  predicate AllLowerCase(kws: seq<string>) {
    forall k :: 0 <= k < |kws| ==> IsLowerCase(kws[k])
  }

  // The lemmas below check the literal lists one at a time, which keeps
  // each proof small.

  lemma GreetingWordsAreLowerCase()
    ensures AllLowerCase(Keywords(Greeting))
  {
  }

  lemma SkillsWordsAreLowerCase()
    ensures AllLowerCase(Keywords(Skills))
  {
  }

  lemma ProjectsWordsAreLowerCase()
    ensures AllLowerCase(Keywords(Projects))
  {
  }

  lemma ContactWordsAreLowerCase()
    ensures AllLowerCase(Keywords(Contact))
  {
  }

  lemma AboutWordsAreLowerCase()
    ensures AllLowerCase(Keywords(About))
  {
  }

  lemma ResumeWordsAreLowerCase()
    ensures AllLowerCase(Keywords(Resume))
  {
  }

  /** No keyword list repeats a word. */
  predicate NoRepeats(kws: seq<string>) {
    forall i, j :: 0 <= i < j < |kws| ==> kws[i] != kws[j]
  }

  /** How many entries of `keywords` occur as substrings of `text` (counted left to right). */
  function CountIncluded(text: string, keywords: seq<string>): (n: nat)
    ensures n <= |keywords|
    ensures n == 0 <==> forall j :: 0 <= j < |keywords| ==> !Includes(text, keywords[j])
  {
    if keywords == [] then 0
    else
      var init := keywords[..|keywords| - 1];
      assert forall j :: 0 <= j < |init| ==> init[j] == keywords[j];
      CountIncluded(text, init) + (if Includes(text, keywords[|keywords| - 1]) then 1 else 0)
  }

  /** The score of an intent for an (already lower-cased) text. */
  function Score(text: string, intent: Intent): nat {
    CountIncluded(text, Keywords(intent))
  }

  /** The distinct keywords of `kws` that occur in `text`. */
  function Matched(text: string, kws: seq<string>): set<string> {
    set k | k in kws && Includes(text, k)
  }

  /** Over a list without repeats, the count is the number of distinct keywords that occur. */
  lemma {:induction false} CountIsDistinctMatches(text: string, kws: seq<string>)
    requires NoRepeats(kws)
    ensures CountIncluded(text, kws) == |Matched(text, kws)|
  {
    if kws != [] {
      var init, last := kws[..|kws| - 1], kws[|kws| - 1];
      assert kws == init + [last];
      assert NoRepeats(init);
      CountIsDistinctMatches(text, init);
      forall i | 0 <= i < |init| ensures init[i] != last {
        assert init[i] == kws[i];
      }
      forall x
        ensures x in Matched(text, kws) <==> x in Matched(text, init) || (x == last && Includes(text, last))
      {
        assert x in kws <==> x in init || x == last;
      }
      if Includes(text, last) {
        assert last !in Matched(text, init);
        assert Matched(text, kws) == Matched(text, init) + {last};
      } else {
        assert Matched(text, kws) == Matched(text, init);
      }
    }
  }

  /** An intent's score counts each of its keywords once, however often it occurs. */
  lemma ScoreCountsDistinctKeywords(text: string, intent: Intent)
    ensures Score(text, intent) == |Matched(text, Keywords(intent))|
  {
    assert NoRepeats(Keywords(intent));
    CountIsDistinctMatches(text, Keywords(intent));
  }

  /**
   * The score of every intent, in table order. What each score counts is
   * stated by `ScoresCountDistinctMatches` and `ScoreZeroIff`.
   */
  function Scores(text: string): (scores: seq<nat>)
    ensures |scores| == |IntentOrder|
  {
    seq(|IntentOrder|, k requires 0 <= k < |IntentOrder| => Score(text, IntentOrder[k]))
  }

  /**
   * Each intent's score is the number of distinct keywords of its list that
   * occur in the text. Kept out of `Scores`' own contract, which every proof
   * about a reply would otherwise carry.
   */
  lemma ScoresCountDistinctMatches(text: string)
    ensures forall k :: 0 <= k < |IntentOrder| ==> Scores(text)[k] == |Matched(text, Keywords(IntentOrder[k]))|
  {
    forall k | 0 <= k < |IntentOrder|
      ensures Scores(text)[k] == |Matched(text, Keywords(IntentOrder[k]))|
    {
      ScoreCountsDistinctKeywords(text, IntentOrder[k]);
    }
  }

  /**
   * The scan over the table from position `k` on, with `best` and
   * `maxScore` the values accumulated so far: an intent replaces the current
   * best only when its score is strictly greater.
   */
  function PickBest(scores: seq<nat>, k: nat, best: Intent, maxScore: nat): (r: (Intent, nat))
    requires |scores| == |IntentOrder| && k <= |scores|
    ensures r.1 >= maxScore
    ensures r.1 == maxScore ==> r.0 == best
    decreases |scores| - k
  {
    if k == |scores| then (best, maxScore)
    else if scores[k] > maxScore then PickBest(scores, k + 1, IntentOrder[k], scores[k])
    else PickBest(scores, k + 1, best, maxScore)
  }

  /**
   * The intent the widget chooses for `input`: `Unknown` exactly when no
   * intent scores; otherwise an intent whose score no other intent beats.
   */
  function Classify(input: string): (r: Intent)
    ensures r == Unknown <==> forall k :: 0 <= k < |IntentOrder| ==> Scores(ToLower(input))[k] == 0
    ensures r != Unknown ==>
      exists k :: 0 <= k < |IntentOrder| && IntentOrder[k] == r &&
        forall j :: 0 <= j < |IntentOrder| ==> Scores(ToLower(input))[j] <= Scores(ToLower(input))[k]
  {
    var scores := Scores(ToLower(input));
    PickBestKeepsInvariant(scores, 0, Unknown, 0);
    assert scores[6] == 0;
    var (best, maxScore) := PickBest(scores, 0, Unknown, 0);
    if maxScore > 0 then best else Unknown
  }

  /** The intent at position `k` scores at least as much as every intent and more than every earlier one. */
  ghost predicate FirstBestAt(scores: seq<nat>, k: nat)
    requires k < |scores|
  {
    && (forall j :: 0 <= j < |scores| ==> scores[j] <= scores[k])
    && (forall j :: 0 <= j < k ==> scores[j] < scores[k])
  }

  /** Declarative description of the chosen intent, given the score of every intent in table order. */
  ghost predicate IsFirstBest(scores: seq<nat>, r: Intent)
    requires |scores| == |IntentOrder|
  {
    if forall j :: 0 <= j < |scores| ==> scores[j] == 0 then r == Unknown
    else exists k :: 0 <= k < |scores| && IntentOrder[k] == r && FirstBestAt(scores, k)
  }

  /** What holds of `best` and `maxScore` after the first `k` intents have been scanned. */
  ghost predicate ScanInvariant(scores: seq<nat>, k: nat, best: Intent, maxScore: nat)
    requires |scores| == |IntentOrder| && k <= |scores|
  {
    && (forall j :: 0 <= j < k ==> scores[j] <= maxScore)
    && (maxScore == 0 ==> best == Unknown)
    && (maxScore > 0 ==>
          exists i :: 0 <= i < k && IntentOrder[i] == best && scores[i] == maxScore &&
            forall j :: 0 <= j < i ==> scores[j] < maxScore)
  }

  lemma {:induction false} PickBestKeepsInvariant(scores: seq<nat>, k: nat, best: Intent, maxScore: nat)
    requires |scores| == |IntentOrder| && k <= |scores|
    requires ScanInvariant(scores, k, best, maxScore)
    ensures ScanInvariant(scores, |scores|, PickBest(scores, k, best, maxScore).0, PickBest(scores, k, best, maxScore).1)
    decreases |scores| - k
  {
    if k < |scores| {
      if scores[k] > maxScore {
        ScanStepTakes(scores, k, best, maxScore);
        PickBestKeepsInvariant(scores, k + 1, IntentOrder[k], scores[k]);
      } else {
        ScanStepKeeps(scores, k, best, maxScore);
        PickBestKeepsInvariant(scores, k + 1, best, maxScore);
      }
    }
  }

  /** A score above every one seen so far makes its intent the new best. */
  lemma ScanStepTakes(scores: seq<nat>, k: nat, best: Intent, maxScore: nat)
    requires |scores| == |IntentOrder| && k < |scores|
    requires ScanInvariant(scores, k, best, maxScore) && scores[k] > maxScore
    ensures ScanInvariant(scores, k + 1, IntentOrder[k], scores[k])
  {
    assert forall j :: 0 <= j < k ==> scores[j] < scores[k];
    assert 0 <= k < k + 1 && IntentOrder[k] == IntentOrder[k] && scores[k] == scores[k];
  }

  /** A score that does not beat the best so far leaves the best as it is. */
  lemma ScanStepKeeps(scores: seq<nat>, k: nat, best: Intent, maxScore: nat)
    requires |scores| == |IntentOrder| && k < |scores|
    requires ScanInvariant(scores, k, best, maxScore) && scores[k] <= maxScore
    ensures ScanInvariant(scores, k + 1, best, maxScore)
  {
    if maxScore > 0 {
      var i :| 0 <= i < k && IntentOrder[i] == best && scores[i] == maxScore &&
        forall j :: 0 <= j < i ==> scores[j] < maxScore;
      assert 0 <= i < k + 1;
    }
  }

  /**
   * The chosen intent is `Unknown` when every score is zero; otherwise its
   * score is maximal and strictly above that of every earlier-declared intent.
   */
  lemma ClassifyIsFirstBest(input: string)
    ensures IsFirstBest(Scores(ToLower(input)), Classify(input))
  {
    var scores := Scores(ToLower(input));
    PickBestKeepsInvariant(scores, 0, Unknown, 0);
    var (best, maxScore) := PickBest(scores, 0, Unknown, 0);
    if maxScore > 0 {
      var i :| 0 <= i < |scores| && IntentOrder[i] == best && scores[i] == maxScore &&
        forall j :: 0 <= j < i ==> scores[j] < maxScore;
      assert FirstBestAt(scores, i);
      assert scores[i] != 0;
    }
  }

  /** The description is unambiguous: at most one intent is the first best. */
  lemma FirstBestIsUnique(scores: seq<nat>, r1: Intent, r2: Intent)
    requires |scores| == |IntentOrder|
    requires IsFirstBest(scores, r1) && IsFirstBest(scores, r2)
    ensures r1 == r2
  {
    if !forall j :: 0 <= j < |scores| ==> scores[j] == 0 {
      var k1 :| 0 <= k1 < |scores| && IntentOrder[k1] == r1 && FirstBestAt(scores, k1);
      var k2 :| 0 <= k2 < |scores| && IntentOrder[k2] == r2 && FirstBestAt(scores, k2);
      assert scores[k1] <= scores[k2] && scores[k2] <= scores[k1];
      assert !(k1 < k2) && !(k2 < k1);
    }
  }

  /** No keyword of any intent occurs in `text`. */
  ghost predicate NoKeywordIncluded(text: string) {
    forall j, m :: 0 <= j < |IntentOrder| && 0 <= m < |Keywords(IntentOrder[j])| ==>
      !Includes(text, Keywords(IntentOrder[j])[m])
  }

  /** `Unknown` is chosen exactly when no keyword occurs in the lower-cased input. */
  lemma ClassifyUnknownIff(input: string)
    ensures Classify(input) == Unknown <==> NoKeywordIncluded(ToLower(input))
  {
    var text := ToLower(input);
    forall j | 0 <= j < |IntentOrder|
      ensures Scores(text)[j] == 0 <==>
        forall m :: 0 <= m < |Keywords(IntentOrder[j])| ==> !Includes(text, Keywords(IntentOrder[j])[m])
    {
      ScoreZeroIff(text, j);
    }
  }

  /** An intent scores zero exactly when none of its keywords occurs in the text. */
  lemma ScoreZeroIff(text: string, j: nat)
    requires j < |IntentOrder|
    ensures Scores(text)[j] == 0 <==>
      forall m :: 0 <= m < |Keywords(IntentOrder[j])| ==> !Includes(text, Keywords(IntentOrder[j])[m])
  {
    assert Scores(text)[j] == CountIncluded(text, Keywords(IntentOrder[j]));
  }

  /** Classification ignores letter case: an input and its lower-cased form get the same intent. */
  lemma ClassifyIgnoresCase(input: string)
    ensures Classify(ToLower(input)) == Classify(input)
  {
    ToLowerIdempotent(input);
  }

  /** The inner loop of the classifier: count the keywords that occur in `text`. */
  method CountKeywords(text: string, keywords: seq<string>) returns (score: nat)
    ensures score == CountIncluded(text, keywords)
  {
    score := 0;
    var j := 0;
    while j < |keywords|
      invariant 0 <= j <= |keywords|
      invariant score == CountIncluded(text, keywords[..j])
    {
      assert keywords[..j + 1][..j] == keywords[..j];
      if Includes(text, keywords[j]) {
        score := score + 1;
      }
      j := j + 1;
    }
    assert keywords[..j] == keywords;
  }

  /**
   * The classifier as the widget runs it: lower-case the input, then for
   * each intent in table order count its keywords that occur and keep the
   * first intent whose count beats the best so far.
   */
  method DetermineIntent(input: string) returns (intent: Intent)
    ensures intent == Classify(input)
  {
    var lowerInput := ToLower(input);
    ghost var scores := Scores(lowerInput);
    var bestIntent := Unknown;
    var maxScore: nat := 0;
    var k := 0;
    while k < |IntentOrder|
      invariant 0 <= k <= |IntentOrder|
      invariant PickBest(scores, k, bestIntent, maxScore) == PickBest(scores, 0, Unknown, 0)
    {
      var score := CountKeywords(lowerInput, Keywords(IntentOrder[k]));
      assert score == scores[k];
      if score > maxScore {
        maxScore := score;
        bestIntent := IntentOrder[k];
      }
      k := k + 1;
    }
    intent := if maxScore > 0 then bestIntent else Unknown;
  }

  // ---------------------------------------------------------------------
  // Response generator
  // ---------------------------------------------------------------------

  const Greetings: seq<string> := [
    "Hello! How can I help you today?",
    "Hi there! Interested in Janeesha's work?",
    "Greetings! Feel free to ask me anything."
  ]

  // The longer fixed texts are written as two literals split at a sentence
  // boundary. Their value is the single string the widget uses; the split
  // has no counterpart in the widget. It only keeps proofs cheap: the
  // verifier cannot read the first character of one long literal, but it
  // can read it from the short first part.
  const ResumeReply := "I can't send files directly yet, " + "but you can request his CV via the contact form below!"

  const FallbackReply := "I'm not quite sure about that. " + "Try asking about 'skills', 'projects', or 'contact info'!"

  const SkillsPrefix := "Janeesha is a versatile developer. " + "\n\nFrontend: "
  const SkillsMiddle := ". \nBackend: "
  const ProjectsPrefix := "He has worked on some cool stuff! " + "For example: \n1. "
  const ProjectsMiddle := " \n2. "
  const ContactPrefix := "You can reach him at "
  const ContactMiddle := " or call "
  const ContactSuffix := ". He's also on LinkedIn!"

  /**
   * What the replies need of a knowledge base: the projects reply names the
   * first two projects, and the biography is not one of the fixed replies
   * (so each reply tells its intent apart).
   */
  predicate ValidKnowledgeBase(kb: KnowledgeBase) {
    |kb.projects| >= 2 && kb.bio != ResumeReply && kb.bio != FallbackReply
  }

  /** The widget's own knowledge base meets what the replies need. */
  lemma PortfolioDataIsValid()
    ensures ValidKnowledgeBase(PortfolioData)
  {
    assert |PortfolioData.bio| != |ResumeReply| && |PortfolioData.bio| != |FallbackReply|;
  }

  function FrontendList(kb: KnowledgeBase): string { Join(kb.skills.frontend, ", ") }
  function BackendList(kb: KnowledgeBase): string { Join(kb.skills.backend, ", ") }

  /**
   * The reply for an intent, filled from the knowledge base `kb`. `pick`
   * stands for the random index the widget draws
   * (`Math.floor(Math.random() * 3)`) to choose a greeting.
   */
  function Respond(kb: KnowledgeBase, intent: Intent, pick: nat): (r: string)
    requires pick < |Greetings| && |kb.projects| >= 2
    ensures intent == Greeting ==> r in Greetings
    ensures intent == About ==> r == kb.bio
    ensures intent == Resume ==> r == ResumeReply
    ensures intent == Unknown ==> r == FallbackReply
  {
    match intent
    case Greeting => Greetings[pick]
    case Skills => SkillsPrefix + FrontendList(kb) + SkillsMiddle + BackendList(kb) + "."
    case Projects =>
      ProjectsPrefix + ProjectEntry(kb.projects[0]) + ProjectsMiddle + ProjectEntry(kb.projects[1])
    case Contact =>
      ContactPrefix + kb.contact.email + ContactMiddle + kb.contact.phone + ContactSuffix
    case About => kb.bio
    case Resume => ResumeReply
    case Unknown => FallbackReply
  }

  /** The greeting reply is one of the three listed greetings, and each of them can be drawn. */
  lemma GreetingReplyIsListed(kb: KnowledgeBase)
    requires |kb.projects| >= 2
    ensures forall pick :: 0 <= pick < |Greetings| ==> Respond(kb, Greeting, pick) in Greetings
    ensures forall g :: g in Greetings ==> exists pick :: 0 <= pick < |Greetings| && Respond(kb, Greeting, pick) == g
  {
    forall g | g in Greetings
      ensures exists pick :: 0 <= pick < |Greetings| && Respond(kb, Greeting, pick) == g
    {
      var pick :| 0 <= pick < |Greetings| && Greetings[pick] == g;
      assert Respond(kb, Greeting, pick) == g;
    }
  }

  /**
   * The projects reply lists the first two projects of the knowledge base,
   * each as its name, " - " and its description, the first before the second.
   */
  lemma ProjectsReplyListsFirstTwo(kb: KnowledgeBase, pick: nat)
    requires pick < |Greetings| && |kb.projects| >= 2
    ensures exists i, j :: OccursAt(Respond(kb, Projects, pick), ProjectEntry(kb.projects[0]), i) &&
                           OccursAt(Respond(kb, Projects, pick), ProjectEntry(kb.projects[1]), j) &&
                           i + |ProjectEntry(kb.projects[0])| <= j
  {
    var e0, e1 := ProjectEntry(kb.projects[0]), ProjectEntry(kb.projects[1]);
    var reply := Respond(kb, Projects, pick);
    assert reply == ProjectsPrefix + e0 + ProjectsMiddle + e1 + "";
    TemplateOccurrences(ProjectsPrefix, e0, ProjectsMiddle, e1, "");
  }

  /** How the projects reply lists one project: its name, " - ", then its description. */
  function ProjectEntry(p: Project): string {
    p.name + " - " + p.desc
  }

  /** The contact reply gives the e-mail address and then the phone number of the knowledge base. */
  lemma ContactReplyGivesEmailAndPhone(kb: KnowledgeBase, pick: nat)
    requires pick < |Greetings| && |kb.projects| >= 2
    ensures exists i, j :: OccursAt(Respond(kb, Contact, pick), kb.contact.email, i) &&
                           OccursAt(Respond(kb, Contact, pick), kb.contact.phone, j) &&
                           i + |kb.contact.email| <= j
  {
    var c := kb.contact;
    var reply := Respond(kb, Contact, pick);
    var i := |ContactPrefix|;
    var j := i + |c.email| + |ContactMiddle|;
    assert reply[i..i + |c.email|] == c.email;
    assert reply[j..j + |c.phone|] == c.phone;
    assert OccursAt(reply, c.email, i) && OccursAt(reply, c.phone, j);
  }

  /** In `p + f + m + b + q`, `f` occurs right after `p` and `b` right after `p + f + m`. */
  lemma TemplateOccurrences(p: string, f: string, m: string, b: string, q: string)
    ensures OccursAt(p + f + m + b + q, f, |p|) && OccursAt(p + f + m + b + q, b, |p| + |f| + |m|)
    ensures Includes(p + f + m + b + q, f) && Includes(p + f + m + b + q, b)
  {
    var s := p + f + m + b + q;
    assert s[|p|..|p| + |f|] == f;
    assert s[|p| + |f| + |m|..|p| + |f| + |m| + |b|] == b;
    assert OccursAt(s, f, |p|) && OccursAt(s, b, |p| + |f| + |m|);
  }

  /**
   * The skills reply holds the frontend list joined by ", " and, after it,
   * the backend list joined by ", ", and so names every listed skill.
   */
  lemma SkillsReplyListsSkillsInOrder(kb: KnowledgeBase, pick: nat)
    requires pick < |Greetings| && |kb.projects| >= 2
    ensures exists i, j :: OccursAt(Respond(kb, Skills, pick), FrontendList(kb), i) &&
                           OccursAt(Respond(kb, Skills, pick), BackendList(kb), j) &&
                           i + |FrontendList(kb)| <= j
    ensures forall s :: s in kb.skills.frontend + kb.skills.backend ==> Includes(Respond(kb, Skills, pick), s)
  {
    var reply := Respond(kb, Skills, pick);
    var f, b := FrontendList(kb), BackendList(kb);
    assert reply == SkillsPrefix + f + SkillsMiddle + b + ".";
    TemplateOccurrences(SkillsPrefix, f, SkillsMiddle, b, ".");
    SkillsNamedInReply(reply, kb.skills.frontend, kb.skills.backend);
  }

  /** A text that includes both joined lists includes every element of either list. */
  lemma SkillsNamedInReply(reply: string, front: seq<string>, back: seq<string>)
    requires Includes(reply, Join(front, ", ")) && Includes(reply, Join(back, ", "))
    ensures forall s :: s in front + back ==> Includes(reply, s)
  {
    JoinIncludesEach(front, ", ");
    JoinIncludesEach(back, ", ");
    forall s | s in front + back
      ensures Includes(reply, s)
    {
      if s in front {
        var m :| 0 <= m < |front| && front[m] == s;
        IncludesTransitive(reply, Join(front, ", "), s);
      } else {
        var m :| 0 <= m < |back| && back[m] == s;
        IncludesTransitive(reply, Join(back, ", "), s);
      }
    }
  }

  /** `processInput`: classify the input, then reply for the chosen intent. */
  function ProcessInput(kb: KnowledgeBase, input: string, pick: nat): (reply: string)
    requires pick < |Greetings| && |kb.projects| >= 2
    ensures Classify(input) == Unknown ==> reply == FallbackReply
    ensures Classify(input) == Greeting ==> reply in Greetings
  {
    Respond(kb, Classify(input), pick)
  }

  /**
   * The two fixed replies are given for their own intents only: every
   * other reply starts with a different character or is a different text.
   */
  lemma FixedRepliesAreDistinct(kb: KnowledgeBase, intent: Intent, pick: nat)
    requires pick < |Greetings| && ValidKnowledgeBase(kb)
    ensures Respond(kb, intent, pick) == ResumeReply <==> intent == Resume
    ensures Respond(kb, intent, pick) == FallbackReply <==> intent == Unknown
  {
    assert ResumeReply[0] == 'I' && FallbackReply[0] == 'I' && |ResumeReply| != |FallbackReply|;
    var reply := Respond(kb, intent, pick);
    match intent {
      case Greeting =>
        assert Greetings[pick][0] != 'I';
      case Skills =>
        assert reply[0] == SkillsPrefix[0] == 'J';
      case Projects =>
        assert reply[0] == ProjectsPrefix[0] == 'H';
      case Contact =>
        assert reply[0] == ContactPrefix[0] == 'Y';
      case About =>
      case Resume =>
      case Unknown =>
    }
  }

  /** The fallback reply is given exactly when no keyword occurs in the input, whatever greeting is drawn. */
  lemma FallbackIffNoKeyword(kb: KnowledgeBase, input: string, pick: nat)
    requires pick < |Greetings| && ValidKnowledgeBase(kb)
    ensures ProcessInput(kb, input, pick) == FallbackReply <==> NoKeywordIncluded(ToLower(input))
  {
    ClassifyUnknownIff(input);
    FixedRepliesAreDistinct(kb, Classify(input), pick);
  }

  /** The resume reply is given exactly when the chosen intent is `Resume`. */
  lemma ResumeReplyIff(kb: KnowledgeBase, input: string, pick: nat)
    requires pick < |Greetings| && ValidKnowledgeBase(kb)
    ensures ProcessInput(kb, input, pick) == ResumeReply <==> Classify(input) == Resume
  {
    FixedRepliesAreDistinct(kb, Classify(input), pick);
  }

  // ---------------------------------------------------------------------
  // Conversation state
  // ---------------------------------------------------------------------

  datatype Sender = User | Bot

  /** A log entry; its clock-based id and timestamp are not modelled. */
  datatype Message = Message(text: string, sender: Sender)

  const Welcome := Message("Hi! I'm Janeesha's AI assistant. Ask me anything about his skills, projects, or background!", Bot)

  const Suggestions: seq<string> := ["What are your skills?", "Tell me about your projects", "How can I contact you?"]

  /** `reply` is what the widget, answering from `kb`, may say to `input`, for some greeting draw. */
  ghost predicate IsReplyTo(kb: KnowledgeBase, reply: string, input: string) {
    |kb.projects| >= 2 && exists pick: nat :: pick < |Greetings| && reply == ProcessInput(kb, input, pick)
  }

  /** `IsReplyTo` for a fixed knowledge base, as a relation. */
  ghost function RepliesFrom(kb: KnowledgeBase): (string, string) -> bool {
    (reply, input) => IsReplyTo(kb, reply, input)
  }

  /**
   * The exchanges after the welcome message: each is a non-blank user
   * message followed by a bot reply to it, except that the last user
   * message may still be waiting for its reply. `answers(reply, input)`
   * says which replies are acceptable.
   */
  ghost predicate Exchanges(rest: seq<Message>, answers: (string, string) -> bool)
    decreases |rest|
  {
    if rest == [] then true
    else
      && rest[0].sender == User && !Blank(rest[0].text)
      && (|rest| == 1 ||
            (rest[1].sender == Bot && answers(rest[1].text, rest[0].text) && Exchanges(rest[2..], answers)))
  }

  /** The text of the trailing user message still waiting for its reply, if any. */
  ghost function Unanswered(rest: seq<Message>): (pending: seq<string>)
    ensures |pending| <= 1
    decreases |rest|
  {
    if rest == [] then []
    else if |rest| == 1 then [rest[0].text]
    else Unanswered(rest[2..])
  }

  /**
   * The log is the welcome message followed by exchanges answered from
   * `kb`, and the pending timers are exactly the unanswered message's.
   */
  ghost predicate WellFormedLog(kb: KnowledgeBase, log: seq<Message>, timers: seq<string>) {
    |log| >= 1 && log[0] == Welcome && Exchanges(log[1..], RepliesFrom(kb)) && timers == Unanswered(log[1..])
  }

  lemma {:induction false} AppendUserExchange(rest: seq<Message>, answers: (string, string) -> bool, text: string)
    requires Exchanges(rest, answers) && Unanswered(rest) == [] && !Blank(text)
    ensures Exchanges(rest + [Message(text, User)], answers) && Unanswered(rest + [Message(text, User)]) == [text]
    decreases |rest|
  {
    if rest != [] {
      assert |rest| != 1;
      assert (rest + [Message(text, User)])[2..] == rest[2..] + [Message(text, User)];
      AppendUserExchange(rest[2..], answers, text);
    }
  }

  lemma {:induction false} AppendBotExchange(rest: seq<Message>, answers: (string, string) -> bool, reply: string, captured: string)
    requires Exchanges(rest, answers) && Unanswered(rest) == [captured] && answers(reply, captured)
    ensures Exchanges(rest + [Message(reply, Bot)], answers) && Unanswered(rest + [Message(reply, Bot)]) == []
    decreases |rest|
  {
    assert rest != [];
    if |rest| == 1 {
      assert (rest + [Message(reply, Bot)])[2..] == [];
    } else {
      assert (rest + [Message(reply, Bot)])[2..] == rest[2..] + [Message(reply, Bot)];
      AppendBotExchange(rest[2..], answers, reply, captured);
    }
  }

  /** Appending a non-blank user message to a log with no reply pending leaves exactly that message awaiting its reply. */
  lemma AppendUserMessage(kb: KnowledgeBase, log: seq<Message>, text: string)
    requires WellFormedLog(kb, log, []) && !Blank(text)
    ensures WellFormedLog(kb, log + [Message(text, User)], [text])
  {
    assert (log + [Message(text, User)])[1..] == log[1..] + [Message(text, User)];
    AppendUserExchange(log[1..], RepliesFrom(kb), text);
  }

  /** Appending a reply to the pending user message closes the exchange: no reply is pending any more. */
  lemma AppendBotReply(log: seq<Message>, answers: (string, string) -> bool, captured: string, reply: string)
    requires |log| >= 1 && Exchanges(log[1..], answers) && Unanswered(log[1..]) == [captured] && answers(reply, captured)
    ensures (log + [Message(reply, Bot)])[0] == log[0]
    ensures Exchanges((log + [Message(reply, Bot)])[1..], answers) && Unanswered((log + [Message(reply, Bot)])[1..]) == []
  {
    assert (log + [Message(reply, Bot)])[1..] == log[1..] + [Message(reply, Bot)];
    AppendBotExchange(log[1..], answers, reply, captured);
  }

  /** What `processInput` answers, for any draw of the greeting, is a reply the log accepts. */
  lemma ProcessInputIsReply(kb: KnowledgeBase, input: string, pick: nat)
    requires pick < |Greetings| && |kb.projects| >= 2
    ensures IsReplyTo(kb, ProcessInput(kb, input, pick), input)
  {
  }

  class ChatWidget {
    /** The knowledge base the replies are filled from. */
    const kb: KnowledgeBase
    var isOpen: bool
    var messages: seq<Message>
    var inputValue: string
    var isTyping: bool
    /** The captured user text of every reply timer scheduled and not yet fired. */
    var timers: seq<string>

    /**
     * The log alternates user messages and the replies to them, at most one
     * reply is outstanding and answers the last user message, and
     * `isTyping` says whether it is pending.
     */
    ghost predicate Valid()
      reads this
    {
      ValidKnowledgeBase(kb) && WellFormedLog(kb, messages, timers) && isTyping == (timers != [])
    }

    constructor ()
      ensures Valid()
      ensures kb == PortfolioData
      ensures !isOpen && messages == [Welcome] && inputValue == "" && !isTyping && timers == []
    {
      kb := PortfolioData;
      isOpen := false;
      messages := [Welcome];
      inputValue := "";
      isTyping := false;
      timers := [];
      PortfolioDataIsValid();
    }

    /** The launcher button and the close button flip `isOpen`. */
    method ToggleChat()
      modifies this`isOpen
      ensures isOpen == !old(isOpen)
    {
      isOpen := !isOpen;
    }

    /** The input box's change handler. */
    method ChangeInput(value: string)
      modifies this`inputValue
      ensures inputValue == value
    {
      inputValue := value;
    }

    /** The send button is disabled while the input is blank or a reply is pending. */
    predicate SendDisabled(): (disabled: bool)
      reads this
      ensures disabled <==> isTyping || forall i :: 0 <= i < |inputValue| ==> IsTrimmable(inputValue[i])
    {
      Blank(inputValue) || isTyping
    }

    /**
     * `handleSendMessage` as created by a render in which the input box held
     * `rendered`: a blank text is ignored; otherwise the user message is
     * appended, the input cleared, `isTyping` set and a reply timer
     * scheduled with the text captured.
     */
    method HandleSendMessage(rendered: string)
      modifies this`messages, this`inputValue, this`isTyping, this`timers
      ensures Blank(rendered) ==>
        messages == old(messages) && inputValue == old(inputValue) &&
        isTyping == old(isTyping) && timers == old(timers)
      ensures !Blank(rendered) ==>
        messages == old(messages) + [Message(rendered, User)] && inputValue == "" &&
        isTyping && timers == old(timers) + [rendered]
    {
      if Blank(rendered) {
        return;
      }
      messages := messages + [Message(rendered, User)];
      inputValue := "";
      isTyping := true;
      timers := timers + [rendered];
    }

    /**
     * Timer `k` fires: the reply to its captured text (with greeting draw
     * `pick`) is appended and `isTyping` cleared.
     */
    method OnReplyTimer(k: nat, pick: nat)
      requires Valid() && k < |timers| && pick < |Greetings|
      modifies this`messages, this`isTyping, this`timers
      ensures Valid()
      ensures messages == old(messages) + [Message(ProcessInput(kb, old(timers[k]), pick), Bot)]
      ensures !isTyping && timers == old(timers[..k] + timers[k + 1..])
    {
      var captured := timers[k];
      assert timers == [captured] && timers[..k] + timers[k + 1..] == [];
      var reply := ProcessInput(kb, captured, pick);
      ProcessInputIsReply(kb, captured, pick);
      assert RepliesFrom(kb)(reply, captured);
      AppendBotReply(messages, RepliesFrom(kb), captured, reply);
      messages := messages + [Message(reply, Bot)];
      isTyping := false;
      timers := [];
    }

    /**
     * Submitting the form (send button or Enter): only when the widget is
     * open and the send button is enabled does the handler run, so a second
     * message cannot be sent while a reply is pending.
     */
    method Submit()
      requires Valid()
      modifies this`messages, this`inputValue, this`isTyping, this`timers
      ensures Valid()
      ensures old(!isOpen || SendDisabled()) ==>
        messages == old(messages) && inputValue == old(inputValue) && isTyping == old(isTyping)
      ensures old(isOpen && !SendDisabled()) ==>
        messages == old(messages) + [Message(old(inputValue), User)] && inputValue == "" && isTyping
    {
      if isOpen && !SendDisabled() {
        AppendUserMessage(kb, messages, inputValue);
        HandleSendMessage(inputValue);
      }
    }

    /**
     * A suggestion button, shown only while the log holds the welcome
     * message alone. It sets the input to the suggestion and calls the
     * handler of the current render, which still sees the old input.
     */
    method ClickSuggestion(suggestion: string)
      requires Valid() && suggestion in Suggestions
      modifies this`messages, this`inputValue, this`isTyping, this`timers
      ensures Valid()
      ensures old(!isOpen || |messages| != 1) ==>
        messages == old(messages) && inputValue == old(inputValue)
      ensures old(isOpen && |messages| == 1 && Blank(inputValue)) ==>
        messages == old(messages) && inputValue == suggestion && !isTyping
      ensures old(isOpen && |messages| == 1 && !Blank(inputValue)) ==>
        messages == old(messages) + [Message(old(inputValue), User)] && inputValue == ""
    {
      if isOpen && |messages| == 1 {
        var rendered := inputValue;
        if !Blank(rendered) {
          AppendUserMessage(kb, messages, rendered);
        }
        inputValue := suggestion;
        HandleSendMessage(rendered);
      }
    }

    /** The suggestion button as evidently intended: it sends the suggestion's own text. */
    method ClickSuggestionIntended(suggestion: string)
      requires Valid() && suggestion in Suggestions
      modifies this`messages, this`inputValue, this`isTyping, this`timers
      ensures Valid()
      ensures old(!isOpen || |messages| != 1) ==>
        messages == old(messages) && inputValue == old(inputValue)
      ensures old(isOpen && |messages| == 1) ==>
        messages == old(messages) + [Message(suggestion, User)] && inputValue == "" && isTyping
    {
      if isOpen && |messages| == 1 {
        assert !IsTrimmable(suggestion[0]);
        AppendUserMessage(kb, messages, suggestion);
        HandleSendMessage(suggestion);
      }
    }
  }

  /** A fresh widget, opened, first suggestion clicked: nothing is sent and the suggestion only lands in the input box. */
  method SuggestionOnFreshWidget() returns (log: seq<Message>, input: string)
    ensures log == [Welcome] && input == Suggestions[0]
  {
    var w := new ChatWidget();
    w.ToggleChat();
    w.ClickSuggestion(Suggestions[0]);
    log, input := w.messages, w.inputValue;
  }

  /** The same clicks with the intended handler send the suggestion as the first user message. */
  method IntendedSuggestionOnFreshWidget() returns (log: seq<Message>, input: string)
    ensures log == [Welcome, Message(Suggestions[0], User)] && input == ""
  {
    var w := new ChatWidget();
    w.ToggleChat();
    w.ClickSuggestionIntended(Suggestions[0]);
    log, input := w.messages, w.inputValue;
  }
}

=== FILE: Navigation.dfy ===
/**
 * The navigation bar: it hides while the page scrolls down and shows again
 * on the way up or near the top, highlights the link of the section that is
 * most in view, and has a mobile menu that opens and closes.
 */
module Navigation {

  /** The distance from the top of the page below which the bar is always shown. */
  const TopBuffer: real := 50.0

  /** One intersection-observer entry: the observed section's id, how much of it is in view, and whether it intersects. */
  datatype Entry = Entry(id: string, ratio: real, isIntersecting: bool)

  /** `entries.filter((e) => e.isIntersecting)`. */
  function Intersecting(entries: seq<Entry>): (visible: seq<Entry>)
    ensures forall e :: e in visible <==> e in entries && e.isIntersecting
    ensures visible == [] <==> forall j :: 0 <= j < |entries| ==> !entries[j].isIntersecting
  {
    if entries == [] then []
    else if entries[0].isIntersecting then [entries[0]] + Intersecting(entries[1..])
    else Intersecting(entries[1..])
  }

  /** Insert `x` ahead of the first element whose ratio is not greater than its own. */
  function InsertByRatio(x: Entry, sorted: seq<Entry>): (r: seq<Entry>)
    ensures |r| == |sorted| + 1
    ensures multiset(r) == multiset(sorted) + multiset{x}
  {
    if sorted == [] || sorted[0].ratio <= x.ratio then [x] + sorted
    else
      assert sorted == [sorted[0]] + sorted[1..];
      [sorted[0]] + InsertByRatio(x, sorted[1..])
  }

  /**
   * `s.sort((a, b) => b.intersectionRatio - a.intersectionRatio)`: a stable
   * sort by decreasing ratio. A stable sort's output is fully determined by
   * the comparator, so this insertion sort gives the same sequence.
   */
  function SortByRatio(s: seq<Entry>): (r: seq<Entry>)
    ensures |r| == |s|
    ensures multiset(r) == multiset(s)
  {
    if s == [] then []
    else
      assert s == [s[0]] + s[1..];
      InsertByRatio(s[0], SortByRatio(s[1..]))
  }

  /** Ratios never increase along `s`. */
  ghost predicate Descending(s: seq<Entry>) {
    forall i, j :: 0 <= i < j < |s| ==> s[i].ratio >= s[j].ratio
  }

  lemma {:induction false} InsertKeepsDescending(x: Entry, sorted: seq<Entry>)
    requires Descending(sorted)
    ensures Descending(InsertByRatio(x, sorted))
  {
    if sorted != [] && sorted[0].ratio > x.ratio {
      var tail := InsertByRatio(x, sorted[1..]);
      InsertKeepsDescending(x, sorted[1..]);
      forall j | 0 <= j < |tail|
        ensures tail[j].ratio <= sorted[0].ratio
      {
        assert tail[j] in multiset(tail);
        assert tail[j] == x || tail[j] in multiset(sorted[1..]);
        if tail[j] != x {
          var m :| 0 <= m < |sorted[1..]| && sorted[1..][m] == tail[j];
          assert sorted[m + 1] == tail[j];
        }
      }
    }
  }

  /** The sort leaves the ratios in decreasing order. */
  lemma {:induction false} SortByRatioIsDescending(s: seq<Entry>)
    ensures Descending(SortByRatio(s))
  {
    if s != [] {
      SortByRatioIsDescending(s[1..]);
      InsertKeepsDescending(s[0], SortByRatio(s[1..]));
    }
  }

  /**
   * Entry `k` intersects, no intersecting entry has a larger ratio, and
   * every intersecting entry before it has a strictly smaller one.
   */
  ghost predicate IsTopEntry(entries: seq<Entry>, k: int) {
    && 0 <= k < |entries| && entries[k].isIntersecting
    && (forall j :: 0 <= j < |entries| && entries[j].isIntersecting ==> entries[j].ratio <= entries[k].ratio)
    && (forall j :: 0 <= j < k && entries[j].isIntersecting ==> entries[j].ratio < entries[k].ratio)
  }

  /** There is at most one top entry. */
  lemma TopEntryIsUnique(entries: seq<Entry>, k1: int, k2: int)
    requires IsTopEntry(entries, k1) && IsTopEntry(entries, k2)
    ensures k1 == k2
  {
    assert entries[k1].ratio <= entries[k2].ratio && entries[k2].ratio <= entries[k1].ratio;
  }

  /** A top entry of `entries[1..]` is, one place later, a top entry of `entries` when `entries[0]` does not compete. */
  lemma TopEntryOfTail(entries: seq<Entry>, k: int)
    requires |entries| > 0 && IsTopEntry(entries[1..], k)
    requires entries[0].isIntersecting ==> entries[0].ratio < entries[1..][k].ratio
    ensures IsTopEntry(entries, k + 1)
  {
    forall j | 0 <= j < |entries| && entries[j].isIntersecting
      ensures entries[j].ratio <= entries[k + 1].ratio
      ensures j < k + 1 ==> entries[j].ratio < entries[k + 1].ratio
    {
      if j > 0 {
        assert entries[j] == entries[1..][j - 1];
      }
    }
  }

  /** An intersecting `entries[0]` at least as large as the top of `entries[1..]` is the top entry. */
  lemma TopEntryAtHead(entries: seq<Entry>, k: int)
    requires |entries| > 0 && entries[0].isIntersecting
    requires IsTopEntry(entries[1..], k) && entries[1..][k].ratio <= entries[0].ratio
    ensures IsTopEntry(entries, 0)
  {
    forall j | 0 <= j < |entries| && entries[j].isIntersecting
      ensures entries[j].ratio <= entries[0].ratio
    {
      if j > 0 {
        assert entries[j] == entries[1..][j - 1];
      }
    }
  }

  /** An intersecting `entries[0]` with nothing after it intersecting is the top entry. */
  lemma TopEntryAlone(entries: seq<Entry>)
    requires |entries| > 0 && entries[0].isIntersecting
    requires forall j :: 0 <= j < |entries[1..]| ==> !entries[1..][j].isIntersecting
    ensures IsTopEntry(entries, 0)
  {
    forall j | 1 <= j < |entries|
      ensures !entries[j].isIntersecting
    {
      assert entries[j] == entries[1..][j - 1];
    }
  }

  /** What the sort leaves at the head of the intersecting entries of `entries` is its top entry. */
  ghost predicate HeadIsTop(entries: seq<Entry>) {
    var sorted := SortByRatio(Intersecting(entries));
    sorted != [] && exists k :: IsTopEntry(entries, k) && sorted[0] == entries[k]
  }

  /** A first entry that does not intersect changes neither the sort's head nor which entry is on top. */
  lemma SkippedHead(entries: seq<Entry>)
    requires |entries| > 0 && !entries[0].isIntersecting && HeadIsTop(entries[1..])
    ensures HeadIsTop(entries)
  {
    var rest := entries[1..];
    assert Intersecting(entries) == Intersecting(rest);
    var k :| IsTopEntry(rest, k) && SortByRatio(Intersecting(rest))[0] == rest[k];
    TopEntryOfTail(entries, k);
  }

  /** An intersecting first entry is inserted into the sorted rest; the head that results is the top entry. */
  lemma InsertedHead(entries: seq<Entry>)
    requires |entries| > 0 && entries[0].isIntersecting
    requires Intersecting(entries[1..]) != [] ==> HeadIsTop(entries[1..])
    ensures HeadIsTop(entries)
  {
    var e0, rest := entries[0], entries[1..];
    var visible := Intersecting(rest);
    var sorted := SortByRatio(visible);
    assert Intersecting(entries) == [e0] + visible;
    assert ([e0] + visible)[1..] == visible;
    assert SortByRatio(Intersecting(entries)) == InsertByRatio(e0, sorted);
    if visible == [] {
      TopEntryAlone(entries);
    } else {
      var k :| IsTopEntry(rest, k) && sorted[0] == rest[k];
      if sorted[0].ratio <= e0.ratio {
        TopEntryAtHead(entries, k);
      } else {
        TopEntryOfTail(entries, k);
      }
    }
  }

  /**
   * When some entry intersects, the first entry after filtering and sorting
   * is the top entry: the largest ratio, the earliest among equals.
   */
  lemma {:induction false} SortedHeadIsTopEntry(entries: seq<Entry>)
    requires exists j :: 0 <= j < |entries| && entries[j].isIntersecting
    ensures SortByRatio(Intersecting(entries)) != []
    ensures exists k :: IsTopEntry(entries, k) && SortByRatio(Intersecting(entries))[0] == entries[k]
  {
    var rest := entries[1..];
    if Intersecting(rest) != [] {
      SortedHeadIsTopEntry(rest);
    }
    if entries[0].isIntersecting {
      InsertedHead(entries);
    } else {
      SkippedHead(entries);
    }
  }

  class NavBar {
    var isMenuOpen: bool
    var activeHref: string
    /** The scroll position seen by the previous scroll event. */
    var lastScrollY: real
    /** Whether the bar's latest show/hide animation shows it. */
    var shown: bool

    constructor ()
      ensures !isMenuOpen && activeHref == "#home" && lastScrollY == 0.0 && shown
    {
      isMenuOpen := false;
      activeHref := "#home";
      lastScrollY := 0.0;
      shown := true;
    }

    /**
     * The scroll handler: near the top the bar is shown; further down it
     * hides when the page moved down since the last event and shows
     * otherwise. The position is remembered in every case.
     */
    method ControlNavbar(currentScrollY: real)
      modifies this`shown, this`lastScrollY
      ensures currentScrollY < TopBuffer ==> shown
      ensures currentScrollY >= TopBuffer ==> (shown <==> currentScrollY <= old(lastScrollY))
      ensures lastScrollY == currentScrollY
    {
      if currentScrollY < TopBuffer {
        shown := true;
      } else {
        if currentScrollY > lastScrollY {
          shown := false;
        } else {
          shown := true;
        }
      }
      lastScrollY := currentScrollY;
    }

    /** A link was clicked: when its target section exists it becomes active and the menu closes; otherwise nothing changes. */
    method ScrollToSection(href: string, targetExists: bool)
      modifies this`activeHref, this`isMenuOpen
      ensures targetExists ==> activeHref == href && !isMenuOpen
      ensures !targetExists ==> activeHref == old(activeHref) && isMenuOpen == old(isMenuOpen)
    {
      if targetExists {
        activeHref := href;
        isMenuOpen := false;
      }
    }

    /** The mobile menu button. */
    method ToggleMenu()
      modifies this`isMenuOpen
      ensures isMenuOpen == !old(isMenuOpen)
    {
      isMenuOpen := !isMenuOpen;
    }

    /**
     * The intersection observer's callback: the intersecting entries sorted
     * by decreasing ratio; the first one's section becomes active. With no
     * intersecting entry nothing changes.
     */
    method OnIntersect(entries: seq<Entry>)
      modifies this`activeHref
      ensures (forall j :: 0 <= j < |entries| ==> !entries[j].isIntersecting) ==> activeHref == old(activeHref)
      ensures (exists j :: 0 <= j < |entries| && entries[j].isIntersecting) ==>
        exists k :: IsTopEntry(entries, k) && activeHref == "#" + entries[k].id
    {
      var visible := SortByRatio(Intersecting(entries));
      if |visible| > 0 {
        assert visible[0] in multiset(visible);
        SortedHeadIsTopEntry(entries);
        activeHref := "#" + visible[0].id;
      } else if exists j :: 0 <= j < |entries| && entries[j].isIntersecting {
        SortedHeadIsTopEntry(entries);
      }
    }
  }
}

=== FILE: Text.dfy ===
/**
 * The few JavaScript string operations the chat widget relies on:
 * `toLowerCase` (restricted to ASCII), `includes`, `Array.prototype.join`
 * and `trim`, written as functions over `seq<char>` with contracts that say
 * what each computes.
 */
module Text {

  /** `c` lower-cased the way `toLowerCase` does for ASCII letters; every other character is kept. */
  function LowerChar(c: char): (r: char)
    ensures 'A' <= c <= 'Z' ==> 'a' <= r <= 'z' && r as int == c as int + 32
    ensures !('A' <= c <= 'Z') ==> r == c
    ensures !('A' <= r <= 'Z')
  {
    if 'A' <= c <= 'Z' then (c as int + 32) as char else c
  }

  /** `s.toLowerCase()`, for ASCII letters. */
  function ToLower(s: string): (r: string)
    ensures |r| == |s|
    ensures forall i :: 0 <= i < |s| ==> r[i] == LowerChar(s[i])
  {
    seq(|s|, i requires 0 <= i < |s| => LowerChar(s[i]))
  }

  /** `s` holds no ASCII capital letter. */
  predicate IsLowerCase(s: string) {
    forall i :: 0 <= i < |s| ==> !('A' <= s[i] <= 'Z')
  }

  /** A string is its own lower case exactly when it holds no ASCII capital letter. */
  lemma LowerCaseUnchanged(s: string)
    ensures ToLower(s) == s <==> IsLowerCase(s)
  {
    if IsLowerCase(s) {
      assert forall i :: 0 <= i < |s| ==> ToLower(s)[i] == s[i];
    }
  }

  /** Lower-casing twice is lower-casing once. */
  lemma ToLowerIdempotent(s: string)
    ensures ToLower(ToLower(s)) == ToLower(s)
  {
    assert forall i :: 0 <= i < |s| ==> LowerChar(LowerChar(s[i])) == LowerChar(s[i]);
  }

  /** `k` occurs in `s` starting at position `i`. */
  predicate OccursAt(s: string, k: string, i: int) {
    0 <= i && i + |k| <= |s| && s[i..i + |k|] == k
  }

  /** `s.includes(k)`: some position of `s` starts an occurrence of `k` (the empty `k` occurs everywhere). */
  function Includes(s: string, k: string): (b: bool)
    ensures b <==> exists i :: OccursAt(s, k, i)
    decreases |s|
  {
    if |k| > |s| then
      assert forall i :: !OccursAt(s, k, i);
      false
    else if s[..|k|] == k then
      assert OccursAt(s, k, 0);
      true
    else
      OccursShift(s, k);
      Includes(s[1..], k)
  }

  /** An occurrence in `s[1..]` is an occurrence in `s` one place later, and conversely. */
  lemma OccursShift(s: string, k: string)
    requires |k| <= |s| && s[..|k|] != k
    ensures (exists i :: OccursAt(s[1..], k, i)) <==> (exists i :: OccursAt(s, k, i))
  {
    if exists i :: OccursAt(s[1..], k, i) {
      var i :| OccursAt(s[1..], k, i);
      assert s[1..][i..i + |k|] == s[i + 1..i + 1 + |k|];
      assert OccursAt(s, k, i + 1);
    }
    if exists i :: OccursAt(s, k, i) {
      var i :| OccursAt(s, k, i);
      assert i != 0;
      assert s[1..][i - 1..i - 1 + |k|] == s[i..i + |k|];
      assert OccursAt(s[1..], k, i - 1);
    }
  }

  /** Inclusion is transitive: a part of a part is a part. */
  lemma IncludesTransitive(s: string, t: string, k: string)
    requires Includes(s, t) && Includes(t, k)
    ensures Includes(s, k)
  {
    var i :| OccursAt(s, t, i);
    var j :| OccursAt(t, k, j);
    forall m | 0 <= m < |k|
      ensures s[i + j + m] == k[m]
    {
      assert s[i..i + |t|][j + m] == t[j + m];
      assert t[j..j + |k|][m] == k[m];
    }
    assert s[i + j..i + j + |k|] == k;
    assert OccursAt(s, k, i + j);
  }

  /** `xs.join(sep)`: the elements in order with `sep` between neighbours. */
  function Join(xs: seq<string>, sep: string): (r: string)
    ensures |xs| > 0 ==> |xs[0]| <= |r| && r[..|xs[0]|] == xs[0]
    ensures |xs| > 0 ==> |xs[|xs| - 1]| <= |r| && r[|r| - |xs[|xs| - 1]|..] == xs[|xs| - 1]
  {
    if |xs| == 0 then ""
    else if |xs| == 1 then xs[0]
    else xs[0] + sep + Join(xs[1..], sep)
  }

  /** Whatever a string includes, it still includes after a prefix is put in front of it. */
  lemma IncludesAfter(p: string, t: string, k: string)
    requires Includes(t, k)
    ensures Includes(p + t, k)
  {
    var i :| OccursAt(t, k, i);
    assert (p + t)[|p| + i..|p| + i + |k|] == t[i..i + |k|];
    assert OccursAt(p + t, k, |p| + i);
  }

  /** Every element of the list occurs in the joined string. */
  lemma {:induction false} JoinIncludesEach(xs: seq<string>, sep: string)
    ensures forall j :: 0 <= j < |xs| ==> Includes(Join(xs, sep), xs[j])
  {
    if |xs| == 1 {
      assert OccursAt(Join(xs, sep), xs[0], 0);
    } else if |xs| > 1 {
      var tail := Join(xs[1..], sep);
      assert Join(xs, sep) == (xs[0] + sep) + tail;
      JoinIncludesEach(xs[1..], sep);
      assert OccursAt(Join(xs, sep), xs[0], 0);
      forall j | 1 <= j < |xs|
        ensures Includes(Join(xs, sep), xs[j])
      {
        assert xs[j] == xs[1..][j - 1];
        IncludesAfter(xs[0] + sep, tail, xs[j]);
      }
    }
  }

  /**
   * The characters `String.prototype.trim` removes: the ECMAScript
   * WhiteSpace (including every Unicode space separator) and LineTerminator
   * code points.
   */
  predicate IsTrimmable(c: char) {
    || c == '\t' || c == '\U{000B}' || c == '\U{000C}' || c == ' '
    || c == '\U{00A0}' || c == '\U{FEFF}' || c == '\U{1680}'
    || ('\U{2000}' <= c <= '\U{200A}')
    || c == '\U{202F}' || c == '\U{205F}' || c == '\U{3000}'
    || c == '\n' || c == '\r' || c == '\U{2028}' || c == '\U{2029}'
  }

  /** `s` with its leading trimmable characters removed. */
  function TrimStart(s: string): string {
    if s != [] && IsTrimmable(s[0]) then TrimStart(s[1..]) else s
  }

  /** `s` with its trailing trimmable characters removed. */
  function TrimEnd(s: string): string {
    if s != [] && IsTrimmable(s[|s| - 1]) then TrimEnd(s[..|s| - 1]) else s
  }

  /** `TrimStart` removes a prefix of trimmable characters, and stops at the first character that is not one. */
  lemma {:induction false} TrimStartRemovesLeading(s: string)
    ensures |TrimStart(s)| <= |s| && TrimStart(s) == s[|s| - |TrimStart(s)|..]
    ensures forall i :: 0 <= i < |s| - |TrimStart(s)| ==> IsTrimmable(s[i])
    ensures TrimStart(s) == [] || !IsTrimmable(TrimStart(s)[0])
  {
    if s != [] && IsTrimmable(s[0]) {
      var t := TrimStart(s[1..]);
      assert TrimStart(s) == t;
      TrimStartRemovesLeading(s[1..]);
      assert s[1..][|s| - 1 - |t|..] == s[|s| - |t|..];
      forall i | 1 <= i < |s| - |t|
        ensures IsTrimmable(s[i])
      {
        assert s[i] == s[1..][i - 1];
      }
    }
  }

  /** `TrimEnd` removes a suffix of trimmable characters, and stops at the last character that is not one. */
  lemma {:induction false} TrimEndRemovesTrailing(s: string)
    ensures |TrimEnd(s)| <= |s| && TrimEnd(s) == s[..|TrimEnd(s)|]
    ensures forall i :: |TrimEnd(s)| <= i < |s| ==> IsTrimmable(s[i])
    ensures TrimEnd(s) == [] || !IsTrimmable(TrimEnd(s)[|TrimEnd(s)| - 1])
  {
    if s != [] && IsTrimmable(s[|s| - 1]) {
      var t := TrimEnd(s[..|s| - 1]);
      assert TrimEnd(s) == t;
      TrimEndRemovesTrailing(s[..|s| - 1]);
      assert s[..|s| - 1][..|t|] == s[..|t|];
      forall i | |t| <= i < |s| - 1
        ensures IsTrimmable(s[i])
      {
        assert s[i] == s[..|s| - 1][i];
      }
    }
  }

  /** `s.trim()`. */
  function Trim(s: string): (r: string)
    ensures exists i :: TrimmedAt(s, r, i)
    ensures r == [] || (!IsTrimmable(r[0]) && !IsTrimmable(r[|r| - 1]))
  {
    var t := TrimStart(s);
    TrimStartRemovesLeading(s);
    TrimEndRemovesTrailing(t);
    var r, i := TrimEnd(t), |s| - |t|;
    assert r == s[i..i + |r|] by {
      assert t[..|r|] == s[i..][..|r|];
    }
    forall m | 0 <= m < |s| && !(i <= m < i + |r|)
      ensures IsTrimmable(s[m])
    {
      if m >= i {
        assert s[m] == t[m - i];
      }
    }
    assert TrimmedAt(s, r, i);
    r
  }

  /** `r` is `s[i..i + |r|]`, and every character of `s` outside that slice is trimmable. */
  predicate TrimmedAt(s: string, r: string, i: int) {
    && 0 <= i && i + |r| <= |s| && r == s[i..i + |r|]
    && (forall m :: 0 <= m < |s| && !(i <= m < i + |r|) ==> IsTrimmable(s[m]))
  }

  /** `!s.trim()`: the trimmed string is the (falsy) empty string, which happens exactly when every character is trimmable. */
  predicate Blank(s: string): (b: bool)
    ensures b <==> forall i :: 0 <= i < |s| ==> IsTrimmable(s[i])
  {
    var r := Trim(s);
    var i :| TrimmedAt(s, r, i);
    assert r != [] ==> r[0] == s[i];
    r == ""
  }
}
